=== FILE: README.md ===
# Session authentication core, modelled in Dafny

This project models the authentication core of a small Flask API that
offers several strategies. `Auth` is the base strategy and never
authenticates anyone. `BasicAuth` reads an HTTP Basic header. `SessionAuth`
keeps opaque server-side sessions in memory. `SessionExpAuth` adds lazy
expiry to those sessions. `SessionDBAuth` keeps session records in a
persisted table. The model also covers the log-redaction helper
`filter_datum`. It states and proves properties of these parts:

- **Path exclusion** (`PathMatch`): both versions of `Auth.require_auth`.
  They strip trailing slashes, use `*` prefix wildcards, and never depend on
  the order of the patterns. One lemma gives a condition under which the
  two versions agree, and another shows that both exceptions to it occur.
- **Credential extraction** (`Credentials`): the `Authorization` header, the
  session cookie named by `SESSION_NAME`, and the removal of the `Basic `
  prefix.
- **Session stores** (`PlainSessions`, `ExpiringSessions`,
  `PersistedSessions`): immutable maps that are passed in and returned. They
  support create, look-up and destroy. Each has a round-trip lemma. There
  are lemmas that other entries are left unchanged, and that expiry is
  permanent. `destroy_session(user_id)` revokes every session of a user.
- **Application** (`App`, `Views`): choosing the strategy from `AUTH_TYPE`,
  and the before-request gate with its ordered checks (proceed / 401 / 403).
  Also the login view (400 / 404 / 401 / 200) and the logout view
  (403 / 200).
- **Redaction** (`FilteredLogger`): `filter_datum` as a left-to-right scan.
  It has a recursive definition and a loop that is proved to compute the
  same result. Lemmas cover copying text that has no match, redacting one
  value, unanchored matching, and keeping the separators.

Outside inputs become parameters:

- the random `uuid4()` session id is `newId`;
- `datetime.now()` is an integer number of seconds, `now`;
- `SESSION_DURATION` is an integer `duration`;
- the user datastore is a sequence of `User` records searched by email and
  fetched by id;
- password checking is a predicate `validPassword`;
- a request is its path, its headers and its cookies.

Points where the code's behaviour may be unexpected; the model follows the
code:

- `rstrip('/')` removes *every* trailing slash, not just one.
- For `SessionExpAuth`, a duration of zero or less turns expiry off. It is
  not treated as a configuration error. `SessionDBAuth` has no such test:
  its look-up always compares `expired_at` with the clock.
- An unknown `AUTH_TYPE` selects the base `Auth`, which answers 401 or 403
  for every protected path. It does not let requests through.
- `create_session` refuses only `None`, or for the DB variant any non-`str`
  value. An empty user id is accepted.
- With expiring sessions, logout goes through the expiring look-up, so an
  expired session cannot be destroyed and logout answers 403.

## Model

| member | source | states |
|---|---|---|
| `Strings.RStrip` | 0x02-Session_authentication/api/v1/auth/auth.py:28 | `rstrip('/')` returns the prefix that does not end in `/` and is followed only by `/`s |
| `Strings.RStripIgnoresTrailing` | 0x01-Basic_authentication/api/v1/auth/auth.py:38 | appending any number of slashes does not change the stripped form |
| `PathMatch.Excludes` | 0x02-Session_authentication/api/v1/auth/auth.py:31-36 | in both versions a pattern ending in `*` is a prefix test on the pattern minus its `*`, and a pattern with no `*` before its trailing slashes is an equality test with the stripped pattern. A `*` followed by slashes is a prefix test in the Basic version and an equality test in the Session version |
| `PathMatch.AnyExcludes` | 0x02-Session_authentication/api/v1/auth/auth.py:30-38 | the early-return loop finds a match iff some pattern in the list excludes the path |
| `PathMatch.RequireAuth` | 0x02-Session_authentication/api/v1/auth/auth.py:14-38 | a `None` path, a `None` list or an empty list means auth is required. So does an empty path, in the Session version. Otherwise auth is required iff no pattern excludes the slash-stripped path |
| `PathMatch.TrailingSlashesIgnored` | 0x02-Session_authentication/api/v1/auth/auth.py:25-28 | trailing slashes on the path never change the answer, except that the Session version short-circuits on the empty path |
| `PathMatch.WildcardIsPrefixTest` | 0x02-Session_authentication/api/v1/auth/auth.py:31-33 | a pattern ending in `*` excludes exactly the paths that start with the pattern minus its `*`. The pattern itself is not slash-stripped for this test |
| `PathMatch.ExactPatternIsEqualityTest` | 0x02-Session_authentication/api/v1/auth/auth.py:35-36 | in both versions, a non-wildcard pattern excludes only the path equal to the pattern once its slashes are stripped |
| `PathMatch.OrderIrrelevant` | 0x02-Session_authentication/api/v1/auth/auth.py:30-38 | two pattern lists with the same members give the same answer, whatever their order or repetitions |
| `PathMatch.PatternVersionsAgree` | 0x01-Basic_authentication/api/v1/auth/auth.py:40-49 | for each single pattern, the two versions agree unless the pattern has a `*` followed by slashes |
| `PathMatch.VersionsAgree` | 0x01-Basic_authentication/api/v1/auth/auth.py:32-51 | on any path other than the empty one, the Basic version gives the Session version's answer, unless some pattern has a `*` followed by slashes |
| `PathMatch.VersionsDiffer` | 0x01-Basic_authentication/api/v1/auth/auth.py:34-47 | both exceptions really occur. `/api/v1/users/*/` excludes `/api/v1/users/123` only in the Basic version. The empty path is excluded by `/` only in the Basic version |
| `PathMatch.SessionExamples` | 0x02-Session_authentication/api/v1/auth/auth.py:25-38 | `/api/v1/status/` excludes `/api/v1/status` and `/api/v1/status/` but not `/api/v1/statusX`. `/api/v1/users/*` excludes `/api/v1/users/123` but not `/api/v1/other` or `/api/v1/users/` |
| `PathMatch.BasicExamples` | 0x01-Basic_authentication/api/v1/auth/auth.py:34-49 | `/api/v1/stat*` excludes `/api/v1/status`. A pattern without its slash still matches. A `None` path or an empty list requires auth |
| `Credentials.AuthorizationHeader` | 0x02-Session_authentication/api/v1/auth/auth.py:50-52 | `None` for a `None` request. Otherwise the `Authorization` header's value if present, else `None` |
| `Credentials.SessionCookie` | 0x02-Session_authentication/api/v1/auth/auth.py:76-79 | `None` for a `None` request or an unset cookie name. Otherwise the named cookie's value if present, else `None` |
| `Credentials.ExtractBase64` | 0x01-Basic_authentication/api/v1/auth/basic_auth.py:18-24 | there is a result iff the header is a `str` starting with `Basic `, and then the header is `Basic ` followed by the result. A `None` or non-string header gives `None` |
| `Credentials.ExtractBase64RoundTrip` | 0x01-Basic_authentication/api/v1/auth/basic_auth.py:22-24 | extraction returns `token` iff the header is `Basic ` + `token` |
| `Credentials.ExtractBase64Rejects` | 0x01-Basic_authentication/api/v1/auth/basic_auth.py:22-23 | `Bearer xyz`, `Basic` without the space and lower-case `basic …` give `None`. A well-formed header gives its payload |
| `PlainSessions.CreateSession` | 0x02-Session_authentication/api/v1/auth/session_auth.py:13-19 | a `None` user gets no session and the store is unchanged. Otherwise the new id is returned and maps to the user, and every other id looks up as before |
| `PlainSessions.UserIdForSessionId` | 0x02-Session_authentication/api/v1/auth/session_auth.py:21-25 | a user is found iff the id is not `None` and is in the table, and it is the mapped user |
| `PlainSessions.CurrentUser` | 0x02-Session_authentication/api/v1/auth/session_auth.py:27-31 | a user is returned only if the cookie maps to that user's id. The user is returned whenever the cookie maps to the id of a stored user |
| `PlainSessions.DestroySession` | 0x02-Session_authentication/api/v1/auth/session_auth.py:33-44 | succeeds iff the cookie is present and mapped, and then removes exactly that entry. Otherwise the store is unchanged |
| `PlainSessions.CreateAddsOneSession` | 0x02-Session_authentication/api/v1/auth/session_auth.py:17-19 | with a fresh id the table grows by exactly one entry and keeps all old keys |
| `PlainSessions.CreateThenResolve` | 0x02-Session_authentication/api/v1/auth/session_auth.py:17-25 | the id just issued resolves to its user |
| `PlainSessions.DestroyIsIdempotent` | 0x02-Session_authentication/api/v1/auth/session_auth.py:35-44 | after a destroy the cookie resolves to nothing, and a second destroy fails and changes nothing |
| `ExpiringSessions.CreateSession` | 0x02-Session_authentication/api/v1/auth/session_exp_auth.py:16-26 | a `None` user gets no session. Otherwise the new id holds `{user_id, created_at = now}`, and every other id looks up as before |
| `ExpiringSessions.UserIdForSessionId` | 0x02-Session_authentication/api/v1/auth/session_exp_auth.py:30-72 | a `None` id, an unknown id or a `None` record gives `None`. A duration of zero or less returns the record's user. Otherwise a record without `created_at` gives `None`, and a record resolves iff `created_at + duration >= now`. The repeated test at lines 65-69 never changes the result |
| `ExpiringSessions.DestroySession` | 0x02-Session_authentication/api/v1/auth/session_auth.py:33-44 | the inherited destroy succeeds iff the cookie resolves through the expiring look-up, and then removes exactly that entry |
| `ExpiringSessions.CurrentUser` | 0x02-Session_authentication/api/v1/auth/session_auth.py:27-31 | a returned user is stored, and the cookie resolves to that user's id at `now`. A user is returned whenever the cookie resolves at `now` to an id that some stored user holds |
| `ExpiringSessions.ExpiryIsPermanent` | 0x02-Session_authentication/api/v1/auth/session_exp_auth.py:62-63 | a look-up that fails at time `t1` also fails at every later time |
| `ExpiringSessions.CreateThenResolve` | 0x02-Session_authentication/api/v1/auth/session_exp_auth.py:21-63 | a session created at `now` resolves to its user until `now + duration` inclusive and not after. With a duration of zero or less it always resolves |
| `ExpiringSessions.HalfLifeAndDoubleLife` | 0x02-Session_authentication/api/v1/auth/session_exp_auth.py:62-69 | with a positive duration `d`, a session resolves at `t0 + d/2` and fails at `t0 + 2d` |
| `ExpiringSessions.ExpiredSessionIsNotDestroyed` | 0x02-Session_authentication/api/v1/auth/session_auth.py:40-42 | logging out of an expired session fails, and its entry stays in the table |
| `PersistedSessions.CreateSession` | 0x02-Session_authentication/api/v1/auth/session_db_auth.py:11-21 | a non-`str` user id falls through to `None` with the table unchanged. A `str` id saves one record under the new id, which is returned |
| `PersistedSessions.UserIdForSessionId` | 0x02-Session_authentication/api/v1/auth/session_db_auth.py:23-32 | the owner is returned iff the id is not `None`, a record exists, and `now <= expired_at` |
| `PersistedSessions.DestroySession` | 0x02-Session_authentication/api/v1/auth/session_db_auth.py:34-39 | exactly the records owned by the given user are removed. Every other record is kept unchanged |
| `PersistedSessions.DestroyBySessionId` | 0x02-Session_authentication/api/v1/auth/session_db_auth.py:34-39 | corrected logout for this variant: succeeds iff the cookie's session resolves at `now`, and removes exactly that record |
| `PersistedSessions.DestroyRevokesEveryUserSession` | 0x02-Session_authentication/api/v1/auth/session_db_auth.py:36-38 | after `destroy_session(u)` no former session of `u` resolves at any time, and every other session resolves as before |
| `PersistedSessions.DestroyNonTextIsNoOp` | 0x02-Session_authentication/api/v1/auth/session_db_auth.py:36 | a non-string argument matches no owner and removes nothing |
| `PersistedSessions.CreateThenResolve` | 0x02-Session_authentication/api/v1/auth/session_db_auth.py:14-32 | a saved record resolves to its owner up to `expired_at` inclusive |
| `App.SelectAuth` | 0x02-Session_authentication/api/v1/app.py:24-36 | a known `AUTH_TYPE` selects its strategy. Any other value, or none, selects the base `Auth`, so some strategy is always selected. Stores start empty and the expiring variants keep the duration |
| `App.SelectAuthByName` | 0x02-Session_authentication/api/v1/app.py:27-36 | selecting by a strategy's own name gives that strategy, freshly initialised |
| `App.CurrentUser` | 0x02-Session_authentication/api/v1/auth/auth.py:54-64 | the base strategy never returns a user, and the Basic strategy gives the answer of its own `current_user`. Each session strategy returns only a stored user whose id the cookie resolves to at `now`, and returns one whenever the cookie resolves to an id some stored user holds |
| `App.CreateSession` | 0x02-Session_authentication/api/v1/views/session_auth.py:26 | defined iff the strategy has sessions. The new id resolves to the user at every time until its session expires and to nothing afterwards: never for `SessionAuth`, after `now + SESSION_DURATION` for `SessionExpAuth` with a positive duration, and after the record's `expired_at` for `SessionDBAuth`. Every other id resolves as before at every time |
| `App.DestroySessionAsWritten` | 0x02-Session_authentication/api/v1/auth/session_db_auth.py:34-39 | as written, the DB variant's destroy, called with a request, removes nothing and reports failure |
| `App.DestroySession` | 0x02-Session_authentication/api/v1/views/session_auth.py:38 | succeeds iff the cookie resolves at `now`. Afterwards that id resolves at no time. Other ids are unaffected, and a failure changes nothing |
| `App.PersistedLogoutAsWrittenKeepsSession` | 0x02-Session_authentication/api/v1/auth/session_db_auth.py:34-39 | under the DB variant the shipped destroy fails even for a live cookie, which the corrected destroy removes |
| `App.NeedsAuth` | 0x02-Session_authentication/api/v1/app.py:81-90 | the empty path always needs authentication. Any other path needs it exactly when, with its trailing slashes removed, it is none of `/api/v1/status`, `/api/v1/unauthorized`, `/api/v1/forbidden` and `/api/v1/auth_session/login` |
| `App.HandleRequest` | 0x02-Session_authentication/api/v1/app.py:73-102 | an excluded path proceeds with no user. With neither header nor cookie the answer is 401. With credentials but no current user it is 403. Otherwise the request proceeds with that user |
| `App.MissingCredentialsDecideAlone` | 0x02-Session_authentication/api/v1/app.py:93-99 | 401 takes precedence: without credentials the answer depends on neither the strategy nor the user table |
| `App.BaseAuthAdmitsOnlyExcludedPaths` | 0x02-Session_authentication/api/v1/app.py:93-99 | with the base `Auth`, every protected request ends in 401 or 403 |
| `App.ListedPathsAreOpen` | 0x02-Session_authentication/api/v1/app.py:81-90 | `/api/v1/status` (with or without its slash), `/api/v1/forbidden` and `/api/v1/auth_session/login` are open, although the list spells them with a trailing slash |
| `App.OtherPathsAreProtected` | 0x02-Session_authentication/api/v1/app.py:81-90 | `/api/v1/statusX`, `/api/v1/users/me` and the empty path need authentication |
| `App.SessionGateEndToEnd` | 0x02-Session_authentication/api/v1/app.py:88-102 | with plain sessions: no cookie gives 401, an unmapped cookie gives 403, and a cookie mapped to a stored user proceeds with that user |
| `App.ExpiredCookieIsForbidden` | 0x02-Session_authentication/api/v1/app.py:98-99 | an expired session cookie gets 403 |
| `App.RevokedUserIsForbidden` | 0x02-Session_authentication/api/v1/app.py:98-99 | after `destroy_session(u)` on the DB table, any former cookie of `u` gets 403 |
| `Users.SearchByEmail` | 0x02-Session_authentication/api/v1/views/session_auth.py:20-23 | the search returns only stored users with the email, in storage order. Its first element is the first stored user with that email |
| `Users.SearchKeepsMultiplicity` | 0x02-Session_authentication/api/v1/views/session_auth.py:20-23 | each record with the email occurs in the result as often as it is stored, and no other record occurs. With the storage-order clause this makes the result the in-order filter of the table |
| `Views.Login` | 0x02-Session_authentication/api/v1/views/session_auth.py:12-29 | a missing field gives 400, which is checked before a missing user (404), which is checked before a wrong password (401). Only the first user found is checked. On 200, exactly one session is issued for that user and its id is the cookie. That session resolves to the user until it expires, by the strategy's rule, and to nothing afterwards. Nothing changes otherwise |
| `Views.Logout` | 0x02-Session_authentication/api/v1/views/session_auth.py:31-40 | with the corrected destroy under `session_db_auth`: no cookie gives 403. A failed destroy gives 403. Success (200) happens iff the cookie resolves. Afterwards that session resolves at no time, and every other session resolves as before |
| `Views.LogoutAsWritten` | 0x02-Session_authentication/api/v1/views/session_auth.py:38-39 | with the shipped destroy, logout under the DB variant always answers 403 and changes nothing |
| `Views.LoginThenLogout` | 0x02-Session_authentication/api/v1/views/session_auth.py:26-40 | logging out with the cookie just issued by login succeeds and ends the session |
| `Views.PersistedLogoutDiffers` | 0x02-Session_authentication/api/v1/views/session_auth.py:38-40 | under the DB variant a live cookie gets 403 from the shipped logout and 200 from the corrected one |
| `FilteredLogger.Alternatives` | 0x00-personal_data/filtered_logger.py:13-14 | a non-empty field list is used as given. An empty list becomes the single empty alternative, which is what joining no fields produces |
| `FilteredLogger.FirstField` | 0x00-personal_data/filtered_logger.py:13-14 | nothing is found iff no alternative followed by `=` starts the text. Otherwise the result is the first listed alternative that does |
| `FilteredLogger.ValueLength` | 0x00-personal_data/filtered_logger.py:13 | the value is the longest leading run free of separator characters |
| `FilteredLogger.FilterDatum` | 0x00-personal_data/filtered_logger.py:22-38 | a message with no `field=` occurrence is returned unchanged. When the redaction holds no separator character, the output has the message's separator characters in the same order. An empty separator is refused, as `re` refuses `[^]` |
| `FilteredLogger.FilterDatumScan` | 0x00-personal_data/filtered_logger.py:22-38 | the left-to-right substitution loop computes exactly `filter_datum` |
| `FilteredLogger.CopiesUnmatchedText` | 0x00-personal_data/filtered_logger.py:38 | text in which no match starts is copied unchanged, and the scan continues after it |
| `FilteredLogger.PicksFirstListed` | 0x00-personal_data/filtered_logger.py:13-14 | at a position where several fields match, the first listed one wins |
| `FilteredLogger.ValueRunsToSeparator` | 0x00-personal_data/filtered_logger.py:13 | the value stops exactly at the next separator character |
| `FilteredLogger.RedactsOneValue` | 0x00-personal_data/filtered_logger.py:13-15 | at a match, `f=` is kept and the value becomes the redaction. Scanning resumes at the separator, so matches do not overlap |
| `FilteredLogger.RedactsAfterUnmatchedText` | 0x00-personal_data/filtered_logger.py:36-38 | unmatched text followed by one `f=value` comes back with only the value redacted |
| `FilteredLogger.KeepsSeparators` | 0x00-personal_data/filtered_logger.py:13-38 | when the redaction has no separator character, the output has the message's separator characters in the same order |
| `FilteredLogger.UnanchoredMatch` | 0x00-personal_data/filtered_logger.py:13-14 | with field `name`, `username=x` becomes `username=***` |
| `FilteredLogger.RedactingFormat` | 0x00-personal_data/filtered_logger.py:113-124 | the formatter's text is `filter_datum` of the base text with the configured fields, `***` and `;`. So it keeps every `;` in order, and returns text with no field occurrence unchanged |

## Findings

| source | as written | input that shows it | evidently intended | confidence | as-written member | corrected member |
|---|---|---|---|---|---|---|
| 0x02-Session_authentication/api/v1/auth/session_db_auth.py:34-39 | `SessionDBAuth` overrides `destroy_session(request)` with `destroy_session(user_id)`, which returns `None`. The logout view passes the request and reads `None` as failure. `Views.LogoutAsWritten` and `App.PersistedLogoutAsWrittenKeepsSession` show this | `AUTH_TYPE=session_db_auth`, then `DELETE /api/v1/auth_session/logout` with a cookie naming a live session: the answer is 403 and the session survives | logout removes the cookie's session and answers 200, as it does for the other session strategies | medium (the `UserSession` query is not visible), not executed | `App.DestroySessionAsWritten` | `App.DestroySession` |

## Left out

- The Flask layer is not modelled: routing, `abort`, `jsonify`, CORS, the
  JSON bodies of the 401/403/404 handlers, and the login response body.
  Outcomes are reduced to a status, a cookie value and the strategy state.
- A request is modelled as its path, its headers and its cookies. Header
  names are compared exactly. Flask's case-insensitive header look-up is not
  modelled.
- `handle_request` calls `current_user` twice. The model treats both calls
  as one value. Both calls are evaluated at the same `now`, and the
  look-up changes no state.
- Randomness: `uuid4()` is replaced by the parameter `newId`. A colliding id
  would overwrite an entry, as the code would. Lemmas that need a fresh id
  say so.
- Time: `datetime.now()` is replaced by an integer `now`.
  `SessionExpAuth.user_id_for_session_id` reads the clock twice. The model
  uses one instant for both reads.
- `SESSION_DURATION` parsing is replaced by an integer `duration`. The
  source compares a `timedelta` with an int and wraps one `timedelta` in
  another. The model states the evident meaning in whole seconds.
- The source has defects that stop it from running, and the model follows
  its evident intent instead:
  - in `basic_auth.py` the `def` line is split in two;
  - in `session_exp_auth.py` there is a stray class-level `return`;
  - in `session_db_auth.py` the dict literal is written with `=`, and
    `session_id` is undefined;
  - `SessionAuth` never initialises `user_id_by_session_id`. The model
    starts it empty.
- The `UserSession` model and its storage are not part of this model. The
  persisted table is a map from session id to owner and `expired_at`. When
  a session is created at login, `expired_at` is taken to be
  `now + SESSION_DURATION`. This is an assumption, because the `UserSession`
  model is not visible.
- The user datastore (`User.search`, `User.get`, `is_valid_password`) is
  not part of this model. It is a sequence of users plus a password
  predicate.
- `BasicAuth.current_user` of the Session-authentication API is not part of
  this model. Its answer is the input `Env.basicUser`. The decoding and
  credential-splitting methods of `BasicAuth` are left out on purpose: the
  gate reads only what `BasicAuth.current_user` answers, and that answer is
  an input.
- In the Basic-authentication API, the first `require_auth` definition is
  shadowed by the second and is dead code. Its `authorization_header` and
  `current_user` behave like the Session API's, which are the versions
  modelled.
- Password hashing with bcrypt is a foreign library and is not modelled.
  The same goes for the user-authentication-service application and its
  HTTP integration script.
- `FilterDatumScan`, `FilterDatum`: fields, separator and redaction are
  taken as literal text. Regex metacharacters in a field, characters that
  are special inside `[^…]`, and backslashes or group references in the
  redaction are not modelled. A separator of several characters acts as a
  character class. An empty separator is refused, as Python's `re` refuses
  it.
- `RedactingFormat`: takes the text produced by `logging.Formatter` as
  input. Record formatting and timestamps are not modelled. Neither are
  `get_logger`, `get_db` or `main`, which only do I/O.
- Concurrency: the code has none, and none is modelled.
- The branch of `handle_request` that skips all checks when no strategy is
  configured is not modelled. Strategy selection always yields a strategy,
  so that branch cannot be taken.

=== FILE: app.dfy ===
/**
 The Session-authentication API's application module: the strategy `auth`
 chosen from `AUTH_TYPE` at start-up, dispatch of the strategy's session
 operations, and the before-request gate `handle_request`, which answers
 every request with "proceed", 401 or 403.
 */
module App {
  import opened Types
  import opened Users
  import opened Credentials
  import Strings
  import PathMatch
  import PlainSessions
  import ExpiringSessions
  import PersistedSessions

  /** The strategy object `auth`, with the session state it owns. The two
      expiring variants carry `SESSION_DURATION` in seconds. */
  datatype Auth =
    | BaseAuth
    | BasicAuth
    | SessionAuth(sessions: PlainSessions.Sessions)
    | SessionExpAuth(records: ExpiringSessions.ExpSessions, duration: int)
    | SessionDBAuth(table: PersistedSessions.SessionTable, duration: int)
  {
    /** Strategies that define the session operations. */
    predicate HasSessions() {
      SessionAuth? || SessionExpAuth? || SessionDBAuth?
    }

    /** No session has been issued yet. */
    predicate Empty() {
      match this
      case SessionAuth(s) => s == map[]
      case SessionExpAuth(r, _) => r == map[]
      case SessionDBAuth(t, _) => t == map[]
      case _ => true
    }
  }

  /** The `AUTH_TYPE` value that selects each strategy; the base strategy
      is what the default value `default` selects. */
  function TypeName(auth: Auth): string {
    match auth
    case BaseAuth => "default"
    case BasicAuth => "basic_auth"
    case SessionAuth(_) => "session_auth"
    case SessionExpAuth(_, _) => "session_exp_auth"
    case SessionDBAuth(_, _) => "session_db_auth"
  }

  /** The `AUTH_TYPE` values with a strategy of their own. */
  const KnownTypes: set<string> := {"basic_auth", "session_auth", "session_exp_auth", "session_db_auth"}

  /** Start-up selection of `auth` from `AUTH_TYPE` (unset means
      `default`). A known name selects its strategy, any other value the
      base `Auth`; a result always exists, so the gate's "no auth" branch
      cannot be taken. */
  function SelectAuth(authType: Option<string>, duration: int): (auth: Auth)
    ensures var name := if authType.Some? then authType.value else "default";
            TypeName(auth) == if name in KnownTypes then name else "default"
    ensures auth.Empty()
    ensures auth.SessionExpAuth? || auth.SessionDBAuth? ==> auth.duration == duration
  {
    var name := if authType.Some? then authType.value else "default";
    if name == "session_auth" then SessionAuth(map[])
    else if name == "session_exp_auth" then SessionExpAuth(map[], duration)
    else if name == "session_db_auth" then SessionDBAuth(map[], duration)
    else if name == "basic_auth" then BasicAuth
    else BaseAuth
  }

  /** Selecting by a strategy's own name yields that strategy, freshly
      initialised; nothing but `default` and the unknown names select the
      base strategy. */
  lemma SelectAuthByName(auth: Auth, duration: int)
    ensures var selected := SelectAuth(Some(TypeName(auth)), duration);
            TypeName(selected) == TypeName(auth) && selected.Empty()
  {
  }

  /** `auth.user_id_for_session_id(session_id)` for the strategies that
      have it, at time `now`. */
  function LookupSession(auth: Auth, sessionId: Option<string>, now: int): (userId: Option<string>)
    requires auth.HasSessions()
    ensures sessionId.None? ==> userId.None?
  {
    match auth
    case SessionAuth(s) => PlainSessions.UserIdForSessionId(s, sessionId)
    case SessionExpAuth(r, d) => ExpiringSessions.UserIdForSessionId(r, sessionId, d, now)
    case SessionDBAuth(t, _) => PersistedSessions.UserIdForSessionId(t, sessionId, now)
  }

  /** What the gate needs from outside the core: the configured
      `SESSION_NAME`, the user table, the clock, and the answer of the Basic
      strategy's `current_user` (its code is not part of this model). */
  datatype Env = Env(cookieName: Option<string>, users: seq<User>, now: int, basicUser: Option<User>)

  /** `auth.current_user(request)`: nobody for the base strategy; for the
      session strategies, the stored user the session cookie resolves to,
      returned whenever such a user exists; for the Basic strategy, the
      answer of its own `current_user`. */
  function CurrentUser(auth: Auth, env: Env, req: Option<Request>): (user: Option<User>)
    ensures auth.BaseAuth? ==> user.None?
    ensures auth.HasSessions() && user.Some? ==>
              && user.value in env.users
              && LookupSession(auth, SessionCookie(req, env.cookieName), env.now) == Some(user.value.id)
    ensures auth.HasSessions() ==>
              var id := LookupSession(auth, SessionCookie(req, env.cookieName), env.now);
              id.Some? && (exists i :: 0 <= i < |env.users| && env.users[i].id == id.value) ==> user.Some?
    ensures auth.BasicAuth? ==> user == env.basicUser
  {
    match auth
    case BaseAuth => None
    case BasicAuth => env.basicUser
    case SessionAuth(s) => PlainSessions.CurrentUser(s, env.users, req, env.cookieName)
    case SessionExpAuth(r, d) => ExpiringSessions.CurrentUser(r, d, env.now, env.users, req, env.cookieName)
    case SessionDBAuth(t, _) =>
      GetById(env.users, PersistedSessions.UserIdForSessionId(t, SessionCookie(req, env.cookieName), env.now))
  }

  /** Whether a session issued by `auth` at `issued` has expired by time
      `t`: never for plain sessions; for expiring sessions once more than a
      positive `SESSION_DURATION` has passed; for the persisted variant once
      `t` is past its `expired_at`, taken to be `issued + SESSION_DURATION`. */
  predicate ExpiredAt(auth: Auth, issued: int, t: int) {
    match auth
    case SessionExpAuth(_, d) => d > 0 && issued + d < t
    case SessionDBAuth(_, d) => issued + d < t
    case _ => false
  }

  /** `auth.create_session(user_id)` for a user id (always a `str` here).
      `None` stands for a strategy without the method. The new id resolves
      to the user at every time until the session expires and to nothing
      afterwards, and every other session id resolves at every time exactly
      as before. */
  function CreateSession(auth: Auth, userId: string, newId: string, now: int): (r: Option<Issued<Auth>>)
    ensures r.Some? <==> auth.HasSessions()
    ensures r.Some? ==> r.value.sessionId == Some(newId) && r.value.store.HasSessions()
    ensures r.Some? ==>
              forall t :: LookupSession(r.value.store, Some(newId), t) ==
                          if ExpiredAt(auth, now, t) then None else Some(userId)
    ensures r.Some? ==>
              forall k, t :: k != newId ==>
                LookupSession(r.value.store, Some(k), t) == LookupSession(auth, Some(k), t)
  {
    match auth
    case SessionAuth(s) =>
      var c := PlainSessions.CreateSession(s, Some(userId), newId);
      Some(Issued(c.sessionId, SessionAuth(c.store)))
    case SessionExpAuth(rs, d) =>
      var c := ExpiringSessions.CreateSession(rs, Some(userId), newId, now);
      Some(Issued(c.sessionId, SessionExpAuth(c.store, d)))
    case SessionDBAuth(t, d) =>
      var c := PersistedSessions.CreateSession(t, Text(userId), newId, now + d);
      Some(Issued(c.sessionId, SessionDBAuth(c.store, d)))
    case _ => None
  }

  /** `auth.destroy_session(request)` as the code is written. `None` stands
      for a strategy without the method. The persisted variant's override
      takes a user id, so the request is compared with record owners,
      matches none, and the call answers `None`, which reads as failure. */
  function DestroySessionAsWritten(auth: Auth, req: Option<Request>, cookieName: Option<string>, now: int): (r: Option<Destroyed<Auth>>)
    ensures r.Some? <==> auth.HasSessions()
    ensures auth.SessionDBAuth? ==> r == Some(Destroyed(false, auth))
  {
    match auth
    case SessionAuth(s) =>
      var d := PlainSessions.DestroySession(s, req, cookieName);
      Some(Destroyed(d.ok, SessionAuth(d.store)))
    case SessionExpAuth(rs, dur) =>
      var d := ExpiringSessions.DestroySession(rs, req, cookieName, dur, now);
      Some(Destroyed(d.ok, SessionExpAuth(d.store, dur)))
    case SessionDBAuth(t, dur) =>
      var after := PersistedSessions.DestroySession(t, if req.None? then Missing else NonText);
      PersistedSessions.DestroyNonTextIsNoOp(t, if req.None? then Missing else NonText);
      Some(Destroyed(false, SessionDBAuth(after, dur)))
    case _ => None
  }

  /** `auth.destroy_session(request)` with the persisted variant removing the
      cookie's session, as the other session strategies do. It succeeds
      exactly when the cookie resolves at `now`; afterwards that id
      resolves at no time, and every other id resolves as before. */
  function DestroySession(auth: Auth, req: Option<Request>, cookieName: Option<string>, now: int): (r: Option<Destroyed<Auth>>)
    ensures r.Some? <==> auth.HasSessions()
    ensures r.Some? ==> r.value.store.HasSessions()
    ensures r.Some? ==>
              (r.value.ok <==> req.Some? && LookupSession(auth, SessionCookie(req, cookieName), now).Some?)
    ensures r.Some? && r.value.ok ==>
              forall t :: LookupSession(r.value.store, SessionCookie(req, cookieName), t).None?
    ensures r.Some? ==>
              forall k, t :: Some(k) != SessionCookie(req, cookieName) ==>
                LookupSession(r.value.store, Some(k), t) == LookupSession(auth, Some(k), t)
    ensures r.Some? && !r.value.ok ==> r.value.store == auth
  {
    match auth
    case SessionDBAuth(t, dur) =>
      if req.None? then Some(Destroyed(false, auth))
      else
        var d := PersistedSessions.DestroyBySessionId(t, SessionCookie(req, cookieName), now);
        Some(Destroyed(d.ok, SessionDBAuth(d.store, dur)))
    case _ => DestroySessionAsWritten(auth, req, cookieName, now)
  }

  /** Under the persisted strategy the shipped logout never destroys
      anything, even for a cookie that resolves, while the corrected
      operation removes that session. */
  lemma PersistedLogoutAsWrittenKeepsSession(t: PersistedSessions.SessionTable, dur: int, req: Request, cookieName: string, now: int)
    requires cookieName in req.cookies
    requires var s := req.cookies[cookieName]; s in t && now <= t[s].expiredAt
    ensures var auth := SessionDBAuth(t, dur);
            && DestroySessionAsWritten(auth, Some(req), Some(cookieName), now) == Some(Destroyed(false, auth))
            && LookupSession(auth, Some(req.cookies[cookieName]), now).Some?
            && DestroySession(auth, Some(req), Some(cookieName), now).value.ok
  {
  }

  /** The `excluded_paths` list of `handle_request`. */
  const ExcludedPaths: seq<string> :=
    ["/api/v1/status/", "/api/v1/unauthorized/", "/api/v1/forbidden/", "/api/v1/auth_session/login/"]

  /** The listed paths as they are compared: without their slash. */
  const OpenPaths: set<string> :=
    {"/api/v1/status", "/api/v1/unauthorized", "/api/v1/forbidden", "/api/v1/auth_session/login"}

  /** Whether `handle_request` checks credentials for this path: always for
      the empty path, and otherwise exactly when the path with its trailing
      slashes removed is none of the listed paths. */
  function NeedsAuth(path: string): (needs: bool)
    ensures path == "" ==> needs
    ensures path != "" ==> (needs <==> Strings.RStrip(path, '/') !in OpenPaths)
  {
    ListedPatternsAreExact();
    PathMatch.RequireAuth(PathMatch.SessionVersion, Some(path), Some(ExcludedPaths))
  }

  /** Each listed pattern has no wildcard and strips to one of `OpenPaths`,
      and every open path comes from one of them. */
  lemma ListedPatternsAreExact()
    ensures forall i :: 0 <= i < |ExcludedPaths| ==>
              && !Strings.EndsWith(Strings.RStrip(ExcludedPaths[i], '/'), '*')
              && Strings.RStrip(ExcludedPaths[i], '/') in OpenPaths
    ensures forall q :: q in OpenPaths ==>
              exists i :: 0 <= i < |ExcludedPaths| && Strings.RStrip(ExcludedPaths[i], '/') == q
  {
    StripsOneSlash("/api/v1/status");
    StripsOneSlash("/api/v1/unauthorized");
    StripsOneSlash("/api/v1/forbidden");
    StripsOneSlash("/api/v1/auth_session/login");
    assert ExcludedPaths[0] == "/api/v1/status" + "/";
    assert ExcludedPaths[1] == "/api/v1/unauthorized" + "/";
    assert ExcludedPaths[2] == "/api/v1/forbidden" + "/";
    assert ExcludedPaths[3] == "/api/v1/auth_session/login" + "/";
  }

  /** A path that does not end in a slash is what one slash strips to. */
  lemma StripsOneSlash(p: string)
    requires !Strings.EndsWith(p, '/')
    ensures Strings.RStrip(p + "/", '/') == p
  {
  }

  /** The gate's answer: let the request through (with the current user
      attached when it was authenticated), or abort with 401 or 403. */
  datatype Outcome = Proceed(user: Option<User>) | Unauthorized | Forbidden

  /** `handle_request`: excluded paths pass untouched; otherwise a request
      with neither an `Authorization` header nor a session cookie gets 401,
      one whose credentials name no current user gets 403, and any other
      proceeds with its current user attached. */
  function HandleRequest(auth: Auth, env: Env, req: Request): (o: Outcome)
    ensures o == Proceed(None) <==> !NeedsAuth(req.path)
    ensures o == Unauthorized <==>
              && NeedsAuth(req.path)
              && AuthorizationHeader(Some(req)).None?
              && SessionCookie(Some(req), env.cookieName).None?
    ensures o == Forbidden <==>
              && NeedsAuth(req.path)
              && (AuthorizationHeader(Some(req)).Some? || SessionCookie(Some(req), env.cookieName).Some?)
              && CurrentUser(auth, env, Some(req)).None?
    ensures o.Proceed? && o.user.Some? ==> o.user == CurrentUser(auth, env, Some(req))
  {
    if !NeedsAuth(req.path) then Proceed(None)
    else if AuthorizationHeader(Some(req)).None? && SessionCookie(Some(req), env.cookieName).None? then Unauthorized
    else
      var user := CurrentUser(auth, env, Some(req));
      if user.None? then Forbidden else Proceed(user)
  }

  /** 401 takes precedence over 403: without credentials the answer does
      not depend on the strategy, its sessions or the user table. */
  lemma MissingCredentialsDecideAlone(a1: Auth, a2: Auth, e1: Env, e2: Env, req: Request)
    requires e1.cookieName == e2.cookieName
    requires NeedsAuth(req.path)
    requires AuthorizationHeader(Some(req)).None? && SessionCookie(Some(req), e1.cookieName).None?
    ensures HandleRequest(a1, e1, req) == HandleRequest(a2, e2, req) == Unauthorized
  {
  }

  /** With the base strategy no request to a protected path gets through. */
  lemma BaseAuthAdmitsOnlyExcludedPaths(env: Env, req: Request)
    requires NeedsAuth(req.path)
    ensures HandleRequest(BaseAuth, env, req) in {Unauthorized, Forbidden}
  {
  }

  /** The listed paths are open with or without their trailing slash. */
  lemma ListedPathsAreOpen()
    ensures !NeedsAuth("/api/v1/status")
    ensures !NeedsAuth("/api/v1/status/")
    ensures !NeedsAuth("/api/v1/auth_session/login")
    ensures !NeedsAuth("/api/v1/forbidden")
  {
    assert PathMatch.Excludes(PathMatch.SessionVersion, "/api/v1/forbidden", ExcludedPaths[2]);
  }

  /** A path merely sharing a prefix with a listed one, any other path, and
      the empty path all need authentication. */
  lemma OtherPathsAreProtected()
    ensures NeedsAuth("/api/v1/statusX")
    ensures NeedsAuth("/api/v1/users/me")
    ensures NeedsAuth("")
  {
  }

  /** End to end with plain sessions: a protected path with no cookie gets
      401; a cookie that resolves to no stored user gets 403; a cookie that
      resolves to a stored user proceeds with that user. */
  lemma SessionGateEndToEnd(s: PlainSessions.Sessions, env: Env, req: Request)
    requires NeedsAuth(req.path)
    requires AuthorizationName !in req.headers
    requires env.cookieName.Some?
    ensures env.cookieName.value !in req.cookies ==> HandleRequest(SessionAuth(s), env, req) == Unauthorized
    ensures env.cookieName.value in req.cookies && req.cookies[env.cookieName.value] !in s ==>
              HandleRequest(SessionAuth(s), env, req) == Forbidden
    ensures env.cookieName.value in req.cookies && req.cookies[env.cookieName.value] in s ==>
              forall u :: u in env.users && u.id == s[req.cookies[env.cookieName.value]] ==>
                HandleRequest(SessionAuth(s), env, req).Proceed?
                && HandleRequest(SessionAuth(s), env, req).user.Some?
                && HandleRequest(SessionAuth(s), env, req).user.value.id == u.id
  {
  }

  /** With expiring sessions, a cookie whose session is older than the
      duration is refused with 403 on every protected path. */
  lemma ExpiredCookieIsForbidden(records: ExpiringSessions.ExpSessions, d: int, env: Env, req: Request)
    requires NeedsAuth(req.path)
    requires env.cookieName.Some? && env.cookieName.value in req.cookies
    requires var s := req.cookies[env.cookieName.value];
             && s in records && records[s].Some? && records[s].value.createdAt.Some?
             && d > 0 && records[s].value.createdAt.value + d < env.now
    ensures HandleRequest(SessionExpAuth(records, d), env, req) == Forbidden
  {
  }

  /** After `destroy_session(u)` on the persisted table, a request carrying
      any former session of `u` is refused with 403. */
  lemma RevokedUserIsForbidden(t: PersistedSessions.SessionTable, d: int, u: string, env: Env, req: Request)
    requires NeedsAuth(req.path)
    requires env.cookieName.Some? && env.cookieName.value in req.cookies
    requires var s := req.cookies[env.cookieName.value]; s in t && t[s].userId == u
    ensures HandleRequest(SessionDBAuth(PersistedSessions.DestroySession(t, Text(u)), d), env, req) == Forbidden
  {
    PersistedSessions.DestroyRevokesEveryUserSession(t, u, req.cookies[env.cookieName.value], env.now);
  }
}

=== FILE: credentials.dfy ===
/**
 Credential extraction: the `Authorization` header and the session cookie
 read off a request (`Auth.authorization_header`, `Auth.session_cookie`),
 and the removal of the `Basic ` prefix from a header value
 (`BasicAuth.extract_base64_authorization_header`).
 */
module Credentials {
  import opened Types

  /** Name of the header carrying credentials. */
  const AuthorizationName: string := "Authorization"

  /** The scheme prefix of an HTTP Basic header, space included. */
  const BasicPrefix: string := "Basic "

  /** `Auth.authorization_header(request)`. */
  function AuthorizationHeader(req: Option<Request>): (h: Option<string>)
    ensures req.None? ==> h.None?
    ensures req.Some? ==> (h.Some? <==> AuthorizationName in req.value.headers)
    ensures h.Some? ==> h.value == req.value.headers[AuthorizationName]
  {
    match req
    case None => None
    case Some(r) => Get(r.headers, AuthorizationName)
  }

  /** `Auth.session_cookie(request)`: the value of the cookie whose name is
      the configured `SESSION_NAME`; an unset name finds no cookie. */
  function SessionCookie(req: Option<Request>, cookieName: Option<string>): (c: Option<string>)
    ensures req.None? || cookieName.None? ==> c.None?
    ensures req.Some? && cookieName.Some? ==> (c.Some? <==> cookieName.value in req.value.cookies)
    ensures c.Some? ==> c.value == req.value.cookies[cookieName.value]
  {
    if req.None? || cookieName.None? then None
    else Get(req.value.cookies, cookieName.value)
  }

  /** `BasicAuth.extract_base64_authorization_header(header)`: the part of
      a `str` header after the exact prefix `Basic `; `None` for a missing
      header, a non-string header, or any other prefix. */
  function ExtractBase64(header: Arg): (token: Option<string>)
    ensures token.Some? <==> header.Text? && BasicPrefix <= header.s
    ensures token.Some? ==> header.s == BasicPrefix + token.value
  {
    match header
    case Missing => None
    case NonText => None
    case Text(s) =>
      if BasicPrefix <= s then Some(s[|BasicPrefix|..]) else None
  }

  /** Extraction inverts building a Basic header, and only a Basic header
      built from `token` yields `token`. */
  lemma ExtractBase64RoundTrip(s: string, token: string)
    ensures ExtractBase64(Text(s)) == Some(token) <==> s == BasicPrefix + token
  {
    if s == BasicPrefix + token {
      assert BasicPrefix <= s;
      assert s[|BasicPrefix|..] == token;
    }
  }

  /** Headers with another scheme, or with the scheme but not the space,
      yield nothing. */
  lemma ExtractBase64Rejects()
    ensures ExtractBase64(Text("Bearer xyz")).None?
    ensures ExtractBase64(Text("Basic")).None?
    ensures ExtractBase64(Text("basic dGVzdA==")).None?
    ensures ExtractBase64(Text("Basic dGVzdDoxMjPCow==")) == Some("dGVzdDoxMjPCow==")
  {
    assert "Bearer xyz"[1] != BasicPrefix[1];
    assert "basic dGVzdA=="[0] != BasicPrefix[0];
    ExtractBase64RoundTrip("Basic dGVzdDoxMjPCow==", "dGVzdDoxMjPCow==");
  }
}

=== FILE: expiring_sessions.dfy ===
/**
 `SessionExpAuth`: the session table of `SessionAuth`, but each entry is a
 dictionary `{user_id, created_at}` and a lookup fails once the session is
 older than the configured `SESSION_DURATION` (in seconds). Expiry is lazy:
 nothing is removed, the age is checked on every lookup against `now`.
 The variant inherits `destroy_session` and `current_user`, which call the
 expiring lookup.
 */
module ExpiringSessions {
  import opened Types
  import opened Credentials
  import opened Users

  /** The dictionary stored for a session; either key may be missing.
      Times are whole seconds. */
  datatype SessionDict = SessionDict(userId: Option<string>, createdAt: Option<int>)

  /** Session id to stored dictionary (an entry may hold `None`). */
  type ExpSessions = map<string, Option<SessionDict>>

  /** `SessionExpAuth.create_session(user_id)`: as for plain sessions, but
      the entry records the creation time. */
  function CreateSession(store: ExpSessions, userId: Option<string>, newId: string, now: int): (r: Issued<ExpSessions>)
    ensures userId.None? ==> r.sessionId.None? && r.store == store
    ensures userId.Some? ==>
              && r.sessionId == Some(newId)
              && Get(r.store, newId) == Some(Some(SessionDict(userId, Some(now))))
    ensures forall k :: k != newId ==> Get(r.store, k) == Get(store, k)
  {
    match userId
    case None => Issued(None, store)
    case Some(_) => Issued(Some(newId), store[newId := Some(SessionDict(userId, Some(now)))])
  }

  /** `SessionExpAuth.user_id_for_session_id(session_id)` evaluated at time
      `now`. A non-positive duration disables expiry; otherwise a session
      resolves up to and including the instant `created_at + duration`. */
  function UserIdForSessionId(store: ExpSessions, sessionId: Option<string>, duration: int, now: int): (userId: Option<string>)
    ensures userId.Some? ==>
              && sessionId.Some? && sessionId.value in store && store[sessionId.value].Some?
              && userId == store[sessionId.value].value.userId
    ensures sessionId.Some? && Get(store, sessionId.value) == Some(None) ==> userId.None?
    ensures sessionId.Some? && sessionId.value in store && store[sessionId.value].Some? ==>
              var record := store[sessionId.value].value;
              && (duration <= 0 ==> userId == record.userId)
              && (duration > 0 && record.createdAt.None? ==> userId.None?)
              && (duration > 0 && record.createdAt.Some? ==>
                    userId == if record.createdAt.value + duration < now then None else record.userId)
  {
    if sessionId.None? then None
    else if sessionId.value !in store then None
    else match store[sessionId.value]
      case None => None
      case Some(record) =>
        if duration <= 0 then record.userId
        else match record.createdAt
          case None => None
          case Some(createdAt) =>
            if createdAt + duration < now then None
            else
              // the source repeats the test through `expires_at`; at the same
              // instant it can no longer succeed
              var expiresAt := createdAt + duration;
              if expiresAt < now then None else record.userId
  }

  /** `SessionAuth.destroy_session(request)` as inherited: the cookie must
      resolve through the expiring lookup, so an expired session is not
      removed. */
  function DestroySession(store: ExpSessions, req: Option<Request>, cookieName: Option<string>, duration: int, now: int): (r: Destroyed<ExpSessions>)
    ensures r.ok ==> SessionCookie(req, cookieName).Some?
    ensures r.ok <==> UserIdForSessionId(store, SessionCookie(req, cookieName), duration, now).Some?
    ensures r.ok ==> r.store == store - {SessionCookie(req, cookieName).value}
    ensures !r.ok ==> r.store == store
  {
    if req.None? then Destroyed(false, store)
    else
      var sessionId := SessionCookie(req, cookieName);
      if sessionId.None? then Destroyed(false, store)
      else if UserIdForSessionId(store, sessionId, duration, now).None? then Destroyed(false, store)
      else Destroyed(true, store - {sessionId.value})
  }

  /** `SessionAuth.current_user(request)` as inherited: the stored user
      whose id the session cookie resolves to at `now`. A user is returned
      whenever the cookie resolves to an id some stored user holds. */
  function CurrentUser(store: ExpSessions, duration: int, now: int, users: seq<User>, req: Option<Request>, cookieName: Option<string>): (user: Option<User>)
    ensures user.Some? ==>
              && user.value in users
              && UserIdForSessionId(store, SessionCookie(req, cookieName), duration, now) == Some(user.value.id)
    ensures (var id := UserIdForSessionId(store, SessionCookie(req, cookieName), duration, now);
             id.Some? && (exists i :: 0 <= i < |users| && users[i].id == id.value))
            ==> user.Some?
  {
    GetById(users, UserIdForSessionId(store, SessionCookie(req, cookieName), duration, now))
  }

  /** Expiry is permanent: a lookup that fails at `t1` fails at every later
      time. */
  lemma ExpiryIsPermanent(store: ExpSessions, sessionId: Option<string>, duration: int, t1: int, t2: int)
    requires t1 <= t2
    requires UserIdForSessionId(store, sessionId, duration, t1).None?
    ensures UserIdForSessionId(store, sessionId, duration, t2).None?
  {
  }

  /** Round trip with expiry: a session created at `now` resolves to its
      user until `now + duration` inclusive and not after, unless the
      duration disables expiry. */
  lemma CreateThenResolve(store: ExpSessions, userId: string, newId: string, duration: int, now: int, t: int)
    ensures var r := CreateSession(store, Some(userId), newId, now);
            UserIdForSessionId(r.store, r.sessionId, duration, t)
              == if duration > 0 && now + duration < t then None else Some(userId)
  {
  }

  /** With duration `d > 0`, a session created at `t0` still resolves at
      `t0 + d / 2` and no longer at `t0 + 2 * d`. */
  lemma HalfLifeAndDoubleLife(store: ExpSessions, userId: string, newId: string, d: int, t0: int)
    requires d > 0
    ensures var r := CreateSession(store, Some(userId), newId, t0);
            && UserIdForSessionId(r.store, r.sessionId, d, t0 + d / 2) == Some(userId)
            && UserIdForSessionId(r.store, r.sessionId, d, t0 + 2 * d).None?
  {
    CreateThenResolve(store, userId, newId, d, t0, t0 + d / 2);
    CreateThenResolve(store, userId, newId, d, t0, t0 + 2 * d);
  }

  /** Logging out of an expired session fails and leaves its entry in the
      table. */
  lemma ExpiredSessionIsNotDestroyed(store: ExpSessions, req: Request, cookieName: string, duration: int, now: int)
    requires cookieName in req.cookies
    requires var s := req.cookies[cookieName];
             && s in store && store[s].Some? && store[s].value.createdAt.Some?
             && duration > 0 && store[s].value.createdAt.value + duration < now
    ensures var r := DestroySession(store, Some(req), Some(cookieName), duration, now);
            !r.ok && req.cookies[cookieName] in r.store
  {
  }
}

=== FILE: filtered_logger.dfy ===
/**
 Log redaction. `filter_datum(fields, redaction, message, separator)`
 substitutes the regular expression `(?P<field>f1|...|fn)=[^sep]*` with
 `\g<field>=redaction`: scanning left to right, wherever one of the fields
 followed by `=` starts, the field and `=` are kept and the value after
 them (the longest run free of separator characters) is replaced by the
 redaction; the scan resumes right after the value. Fields, separator and
 redaction are taken as literal text.
 */
module FilteredLogger {
  import opened Types

  /** The alternatives of the group `(?P<field>...)`: joining an empty
      field list yields an empty group, which matches the empty string. */
  function Alternatives(fields: seq<string>): (alts: seq<string>)
    ensures |alts| > 0
    ensures fields != [] ==> alts == fields
    ensures fields == [] ==> alts == [""]
  {
    if fields == [] then [""] else fields
  }

  /** Field `f` followed by `=` starts `s`. */
  predicate StartsField(f: string, s: string) {
    f + "=" <= s
  }

  /** The field the alternation picks at the head of `s`: the first listed
      alternative that is followed by `=`. */
  function FirstField(alts: seq<string>, s: string): (f: Option<string>)
    ensures f.None? <==> forall k :: 0 <= k < |alts| ==> !StartsField(alts[k], s)
    ensures f.Some? ==> StartsField(f.value, s)
    ensures f.Some? ==>
              exists k :: 0 <= k < |alts| && alts[k] == f.value && StartsField(f.value, s)
                          && forall j :: 0 <= j < k ==> !StartsField(alts[j], s)
  {
    if alts == [] then None
    else if StartsField(alts[0], s) then Some(alts[0])
    else
      var f := FirstField(alts[1..], s);
      assert forall k :: 1 <= k < |alts| ==> alts[k] == alts[1..][k - 1];
      f
  }

  /** Length of the value at the head of `s`: the longest run of
      characters not in the separator (`[^sep]*`). */
  function ValueLength(s: string, sep: string): (n: nat)
    ensures n <= |s|
    ensures forall i :: 0 <= i < n ==> s[i] !in sep
    ensures n == |s| || s[n] in sep
  {
    if s == [] || s[0] in sep then 0 else 1 + ValueLength(s[1..], sep)
  }

  /** One step of the scan at the head of a non-empty `s`: the text it
      emits and the number of characters it consumes. */
  datatype Step = Step(emitted: string, consumed: nat)

  /** At a match, `f=` and the redaction are emitted and the field, `=`
      and the value are consumed; elsewhere one character is copied. */
  function NextStep(alts: seq<string>, redaction: string, s: string, sep: string): (st: Step)
    requires s != []
    ensures 0 < st.consumed <= |s|
  {
    match FirstField(alts, s)
    case None => Step([s[0]], 1)
    case Some(f) =>
      var n := ValueLength(s[|f| + 1..], sep);
      Step(f + "=" + redaction, |f| + 1 + n)
  }

  /** The substitution over `message` with the given alternatives. What it
      computes is stated by the lemmas below: unmatched text is copied,
      each match has its value redacted, separators are kept. */
  function Redact(alts: seq<string>, redaction: string, message: string, sep: string): string
    decreases |message|
  {
    if message == [] then []
    else
      var st := NextStep(alts, redaction, message, sep);
      st.emitted + Redact(alts, redaction, message[st.consumed..], sep)
  }

  /** `filter_datum(fields, redaction, message, separator)`. An empty
      separator is an invalid character set and raises in the source. A
      message in which no listed field followed by `=` occurs comes back
      unchanged; when the redaction holds no separator character, the
      separator characters come back in the same order. */
  function FilterDatum(fields: seq<string>, redaction: string, message: string, separator: string): (r: string)
    requires separator != ""
    ensures NoFieldBefore(Alternatives(fields), message, |message|) ==> r == message
    ensures (forall i :: 0 <= i < |redaction| ==> redaction[i] !in separator) ==>
              Separators(r, separator) == Separators(message, separator)
  {
    RedactFacts(Alternatives(fields), redaction, message, separator);
    Redact(Alternatives(fields), redaction, message, separator)
  }

  /** The two whole-message facts `filter_datum` promises, for any
      alternatives. */
  lemma RedactFacts(alts: seq<string>, redaction: string, message: string, sep: string)
    ensures NoFieldBefore(alts, message, |message|) ==> Redact(alts, redaction, message, sep) == message
    ensures (forall i :: 0 <= i < |redaction| ==> redaction[i] !in sep) ==>
              Separators(Redact(alts, redaction, message, sep), sep) == Separators(message, sep)
  {
    if NoFieldBefore(alts, message, |message|) {
      assert message + [] == message;
      CopiesUnmatchedText(alts, redaction, message, [], sep);
    }
    if forall i :: 0 <= i < |redaction| ==> redaction[i] !in sep {
      KeepsSeparators(alts, redaction, message, sep);
    }
  }

  /** The left-to-right scan of the substitution, written as a loop; it
      computes exactly `filter_datum`. */
  method FilterDatumScan(fields: seq<string>, redaction: string, message: string, separator: string) returns (out: string)
    requires separator != ""
    ensures out == FilterDatum(fields, redaction, message, separator)
  {
    var alts := Alternatives(fields);
    out := [];
    var i := 0;
    assert message[0..] == message;
    while i < |message|
      invariant 0 <= i <= |message|
      invariant out + Redact(alts, redaction, message[i..], separator) == Redact(alts, redaction, message, separator)
      decreases |message| - i
    {
      var tail := message[i..];
      var st := NextStep(alts, redaction, tail, separator);
      var next := message[i + st.consumed..];
      assert (out + st.emitted) + Redact(alts, redaction, next, separator)
          == Redact(alts, redaction, message, separator) by {
        assert Redact(alts, redaction, tail, separator)
            == st.emitted + Redact(alts, redaction, tail[st.consumed..], separator);
        assert tail[st.consumed..] == next;
        var later := Redact(alts, redaction, next, separator);
        calc {
          (out + st.emitted) + later;
          out + (st.emitted + later);
          out + Redact(alts, redaction, tail, separator);
          Redact(alts, redaction, message, separator);
        }
      }
      out := out + st.emitted;
      i := i + st.consumed;
      assert message[i..] == next;
    }
    assert out == Redact(alts, redaction, message, separator) by {
      assert message[i..] == [];
    }
  }

  /** No alternative followed by `=` starts anywhere in `s[..m]`. */
  predicate NoFieldBefore(alts: seq<string>, s: string, m: nat)
    requires m <= |s|
  {
    forall i, k :: 0 <= i < m && 0 <= k < |alts| ==> !StartsField(alts[k], s[i..])
  }

  /** Text in which no match starts is copied unchanged, and the scan then
      carries on with what follows it. */
  lemma {:induction false} CopiesUnmatchedText(alts: seq<string>, redaction: string, pre: string, rest: string, sep: string)
    requires NoFieldBefore(alts, pre + rest, |pre|)
    ensures Redact(alts, redaction, pre + rest, sep) == pre + Redact(alts, redaction, rest, sep)
    decreases |pre|
  {
    if pre != [] {
      var s := pre + rest;
      assert s[0..] == s;
      assert FirstField(alts, s).None? by {
        forall k | 0 <= k < |alts|
          ensures !StartsField(alts[k], s)
        {
          assert !StartsField(alts[k], s[0..]);
        }
      }
      assert s[1..] == pre[1..] + rest;
      assert NoFieldBefore(alts, pre[1..] + rest, |pre| - 1) by {
        forall i, k | 0 <= i < |pre| - 1 && 0 <= k < |alts|
          ensures !StartsField(alts[k], (pre[1..] + rest)[i..])
        {
          assert (pre[1..] + rest)[i..] == s[i + 1..];
        }
      }
      CopiesUnmatchedText(alts, redaction, pre[1..], rest, sep);
      assert NextStep(alts, redaction, s, sep) == Step([pre[0]], 1);
      calc {
        Redact(alts, redaction, s, sep);
        [pre[0]] + Redact(alts, redaction, s[1..], sep);
        [pre[0]] + (pre[1..] + Redact(alts, redaction, rest, sep));
        ([pre[0]] + pre[1..]) + Redact(alts, redaction, rest, sep);
        { assert [pre[0]] + pre[1..] == pre; }
        pre + Redact(alts, redaction, rest, sep);
      }
    } else {
      assert pre + rest == rest;
    }
  }

  /** When `alts[k]` is the first alternative followed by `=` at the head
      of `s`, the alternation picks it. */
  lemma PicksFirstListed(alts: seq<string>, k: nat, s: string)
    requires k < |alts| && StartsField(alts[k], s)
    requires forall j :: 0 <= j < k ==> !StartsField(alts[j], s)
    ensures FirstField(alts, s) == Some(alts[k])
  {
    var g := FirstField(alts, s);
    var k' :| 0 <= k' < |alts| && alts[k'] == g.value && StartsField(g.value, s)
              && forall j :: 0 <= j < k' ==> !StartsField(alts[j], s);
    assert k' == k;
  }

  /** The value runs exactly up to the next separator character. */
  lemma ValueRunsToSeparator(value: string, rest: string, sep: string)
    requires forall i :: 0 <= i < |value| ==> value[i] !in sep
    requires rest == [] || rest[0] in sep
    ensures ValueLength(value + rest, sep) == |value|
  {
    var n := ValueLength(value + rest, sep);
    assert n <= |value| by {
      if |value| < |value + rest| {
        assert (value + rest)[|value|] == rest[0];
      }
    }
  }

  /** One match at the head: when `f` is the first alternative followed by
      `=` there, and `value` runs up to a separator or the end, then `f=`
      is kept, `value` becomes the redaction, and the scan resumes at the
      separator. */
  lemma RedactsOneValue(alts: seq<string>, k: nat, redaction: string, value: string, rest: string, sep: string)
    requires k < |alts|
    requires forall j :: 0 <= j < k ==> !StartsField(alts[j], alts[k] + "=" + value + rest)
    requires forall i :: 0 <= i < |value| ==> value[i] !in sep
    requires rest == [] || rest[0] in sep
    ensures Redact(alts, redaction, alts[k] + "=" + value + rest, sep)
              == alts[k] + "=" + redaction + Redact(alts, redaction, rest, sep)
  {
    var f := alts[k];
    var s := f + "=" + value + rest;
    assert StartsField(f, s);
    PicksFirstListed(alts, k, s);
    assert s[|f| + 1..] == value + rest;
    ValueRunsToSeparator(value, rest, sep);
    assert s[|f| + 1 + |value|..] == rest;
    assert NextStep(alts, redaction, s, sep) == Step(f + "=" + redaction, |f| + 1 + |value|);
  }

  /** Characters of `s` that belong to the separator, in order. */
  function Separators(s: string, sep: string): string {
    if s == [] then []
    else (if s[0] in sep then [s[0]] else []) + Separators(s[1..], sep)
  }

  /** Taking the separator characters distributes over concatenation. */
  lemma {:induction false} SeparatorsOfConcat(a: string, b: string, sep: string)
    ensures Separators(a + b, sep) == Separators(a, sep) + Separators(b, sep)
    decreases |a|
  {
    if a != [] {
      var head := if a[0] in sep then [a[0]] else [];
      assert (a + b)[0] == a[0];
      assert (a + b)[1..] == a[1..] + b;
      SeparatorsOfConcat(a[1..], b, sep);
      calc {
        Separators(a + b, sep);
        head + Separators(a[1..] + b, sep);
        head + (Separators(a[1..], sep) + Separators(b, sep));
        (head + Separators(a[1..], sep)) + Separators(b, sep);
        Separators(a, sep) + Separators(b, sep);
      }
    } else {
      assert a + b == b;
    }
  }

  /** A text without separator characters contributes none. */
  lemma {:induction false} NoSeparators(s: string, sep: string)
    requires forall i :: 0 <= i < |s| ==> s[i] !in sep
    ensures Separators(s, sep) == []
    decreases |s|
  {
    if s != [] {
      NoSeparators(s[1..], sep);
    }
  }

  /** When the redaction holds no separator character, the output has the
      same separator characters as the message, in the same order. */
  lemma {:induction false} KeepsSeparators(alts: seq<string>, redaction: string, message: string, sep: string)
    requires forall i :: 0 <= i < |redaction| ==> redaction[i] !in sep
    ensures Separators(Redact(alts, redaction, message, sep), sep) == Separators(message, sep)
    decreases |message|
  {
    if message != [] {
      match FirstField(alts, message)
      case None =>
        KeepsSeparators(alts, redaction, message[1..], sep);
        SeparatorsOfConcat([message[0]], Redact(alts, redaction, message[1..], sep), sep);
        assert [message[0]][1..] == [];
      case Some(f) =>
        var rest := message[|f| + 1..];
        var n := ValueLength(rest, sep);
        var key := f + "=";
        assert message == key + rest[..n] + rest[n..] by {
          var k :| 0 <= k < |alts| && alts[k] == f && StartsField(f, message);
          assert message[..|key|] == key;
          assert message == message[..|key|] + rest;
          assert rest == rest[..n] + rest[n..];
        }
        KeepsSeparators(alts, redaction, rest[n..], sep);
        NoSeparators(rest[..n], sep);
        NoSeparators(redaction, sep);
        SeparatorsOfConcat(key + rest[..n], rest[n..], sep);
        SeparatorsOfConcat(key, rest[..n], sep);
        SeparatorsOfConcat(key + redaction, Redact(alts, redaction, rest[n..], sep), sep);
        SeparatorsOfConcat(key, redaction, sep);
    }
  }

  /** A message made of unmatched text and one trailing `f=value` comes
      back with only the value replaced. */
  lemma RedactsAfterUnmatchedText(f: string, redaction: string, pre: string, value: string, sep: string)
    requires sep != ""
    requires NoFieldBefore([f], pre + (f + "=" + value), |pre|)
    requires forall i :: 0 <= i < |value| ==> value[i] !in sep
    ensures FilterDatum([f], redaction, pre + (f + "=" + value), sep) == pre + (f + "=" + redaction)
  {
    var alts := Alternatives([f]);
    CopiesUnmatchedText(alts, redaction, pre, f + "=" + value, sep);
    assert f + "=" + value + [] == f + "=" + value;
    RedactsOneValue(alts, 0, redaction, value, [], sep);
    assert Redact(alts, redaction, [], sep) == [];
    assert f + "=" + redaction + [] == f + "=" + redaction;
  }

  /** No `name=` starts within the first four characters of `username=x`. */
  lemma NoNameInUser()
    ensures NoFieldBefore(["name"], "user" + ("name" + "=" + "x"), 4)
  {
    var s := "user" + ("name" + "=" + "x");
    assert s == "username=x";
    forall i, k | 0 <= i < 4 && 0 <= k < 1
      ensures !StartsField(["name"][k], s[i..])
    {
      assert s[i..][4] != '=';
    }
  }

  /** Matching is unanchored: the field `name` is found inside
      `username`, and the text before it is kept. */
  lemma UnanchoredMatch()
    ensures FilterDatum(["name"], "***", "username=x", ";") == "username=***"
  {
    var m, o := "username=x", "username=***";
    assert m == "user" + ("name" + "=" + "x");
    assert o == "user" + ("name" + "=" + "***");
    assert FilterDatum(["name"], "***", m, ";") == o by {
      NoNameInUser();
      RedactsAfterUnmatchedText("name", "***", "user", "x", ";");
    }
  }

  /** `RedactingFormatter.REDACTION`. */
  const Redaction: string := "***"

  /** `RedactingFormatter.SEPARATOR`. */
  const Separator: string := ";"

  /** `RedactingFormatter.format(record)` applied to the text the base
      formatter produced: `filter_datum` with the configured fields, `***`
      and `;`. So every `;` of the text survives in order, and a text
      without any field occurrence comes back unchanged. */
  function RedactingFormat(fields: seq<string>, formatted: string): (r: string)
    ensures r == FilterDatum(fields, Redaction, formatted, Separator)
    ensures Separators(r, Separator) == Separators(formatted, Separator)
    ensures NoFieldBefore(Alternatives(fields), formatted, |formatted|) ==> r == formatted
  {
    assert forall i :: 0 <= i < |Redaction| ==> Redaction[i] !in Separator;
    FilterDatum(fields, Redaction, formatted, Separator)
  }
}

=== FILE: path_match.dfy ===
/**
 The path-exclusion matcher `Auth.require_auth`, in both shipped versions:
 the Session-authentication API's (auth/auth.py, lines 14-38) and the
 effective second definition of the Basic-authentication API's
 (auth/auth.py, lines 32-51). A path needs authentication unless some
 exclusion pattern matches it; a pattern ending in `*` matches by prefix,
 any other pattern by equality, both after trailing slashes are stripped.
 */
module PathMatch {
  import opened Types
  import opened Strings

  /** The two versions of `require_auth`. */
  datatype Version =
    | BasicVersion    // Basic-authentication API, second (effective) definition
    | SessionVersion  // Session-authentication API

  /** Does `pattern` exclude the slash-stripped path `normPath`?
      The Session version tests the wildcard on the raw pattern (so a `*`
      followed by slashes is no wildcard) and then compares the stripped
      pattern for equality; the Basic version strips the pattern first and
      then takes exactly one of the two tests. Both versions treat a
      pattern ending in `*` as a prefix test and a pattern with no `*`
      before its trailing slashes as an equality test; they part only on a
      `*` followed by slashes. */
  function Excludes(v: Version, normPath: string, pattern: string): (excluded: bool)
    ensures EndsWith(pattern, '*') ==> (excluded <==> pattern[..|pattern| - 1] <= normPath)
    ensures !EndsWith(RStrip(pattern, '/'), '*') ==> (excluded <==> normPath == RStrip(pattern, '/'))
    ensures StarBeforeSlashes(pattern) ==>
              var p := RStrip(pattern, '/');
              excluded <==> if v.BasicVersion? then p[..|p| - 1] <= normPath else normPath == p
  {
    match v
    case SessionVersion =>
      || (EndsWith(pattern, '*') && pattern[..|pattern| - 1] <= normPath)
      || normPath == RStrip(pattern, '/')
    case BasicVersion =>
      var p := RStrip(pattern, '/');
      if EndsWith(p, '*') then p[..|p| - 1] <= normPath else p == normPath
  }

  /** The loop over the exclusion list, which returns at the first pattern
      that excludes the path. */
  function AnyExcludes(v: Version, normPath: string, patterns: seq<string>): (found: bool)
    ensures found <==> exists i :: 0 <= i < |patterns| && Excludes(v, normPath, patterns[i])
  {
    if |patterns| == 0 then false
    else if Excludes(v, normPath, patterns[0]) then true
    else AnyExcludes(v, normPath, patterns[1..])
  }

  /** The guard at the top of `require_auth` that answers "required" before
      any pattern is looked at. The Session version tests truthiness
      (`not path`), so the empty path is caught; the Basic version tests only
      for `None` and the empty list. */
  predicate ShortCircuits(v: Version, path: Option<string>, excluded: Option<seq<string>>) {
    || path.None?
    || excluded.None?
    || excluded.value == []
    || (v.SessionVersion? && path.value == "")
  }

  /** `Auth.require_auth(path, excluded_paths)`: true when the request path
      needs authentication. */
  function RequireAuth(v: Version, path: Option<string>, excluded: Option<seq<string>>): (required: bool)
    ensures path.None? || excluded.None? || excluded == Some([]) ==> required
    ensures v.SessionVersion? && path == Some("") ==> required
    ensures !ShortCircuits(v, path, excluded) ==>
              (required <==> forall i :: 0 <= i < |excluded.value| ==>
                                         !Excludes(v, RStrip(path.value, '/'), excluded.value[i]))
  {
    if ShortCircuits(v, path, excluded) then true
    else !AnyExcludes(v, RStrip(path.value, '/'), excluded.value)
  }

  /** Trailing slashes on the request path never matter (apart from the
      Session version's special case of the empty path). */
  lemma TrailingSlashesIgnored(v: Version, p: string, k: nat, excluded: Option<seq<string>>)
    requires v.SessionVersion? ==> p != ""
    ensures RequireAuth(v, Some(p + Repeat('/', k)), excluded) == RequireAuth(v, Some(p), excluded)
  {
    RStripIgnoresTrailing(p, '/', k);
    assert v.SessionVersion? ==> p + Repeat('/', k) != "" by {
      if v.SessionVersion? {
        assert |p + Repeat('/', k)| >= |p| > 0;
      }
    }
  }

  /** In the Session version a pattern ending in `*` excludes exactly the
      paths that start with the pattern minus its `*`. */
  lemma WildcardIsPrefixTest(normPath: string, pattern: string)
    requires EndsWith(pattern, '*')
    ensures Excludes(SessionVersion, normPath, pattern) <==> pattern[..|pattern| - 1] <= normPath
  {
    if normPath == RStrip(pattern, '/') {
      RStripFixed(pattern, '/');
      assert pattern[..|pattern| - 1] <= normPath;
    }
  }

  /** Any other pattern excludes exactly the path equal to the pattern
      with its trailing slashes removed, in both versions. */
  lemma ExactPatternIsEqualityTest(v: Version, normPath: string, pattern: string)
    requires !EndsWith(RStrip(pattern, '/'), '*')
    ensures Excludes(v, normPath, pattern) <==> normPath == RStrip(pattern, '/')
  {
    if EndsWith(pattern, '*') {
      RStripFixed(pattern, '/');
      assert false;
    }
  }

  /** Only the set of patterns matters: reordering or repeating them does
      not change the answer. */
  lemma OrderIrrelevant(v: Version, path: Option<string>, a: seq<string>, b: seq<string>)
    requires forall p :: p in a <==> p in b
    ensures RequireAuth(v, path, Some(a)) == RequireAuth(v, path, Some(b))
  {
    if a != [] {
      assert a[0] in b;
    }
    if b != [] {
      assert b[0] in a;
    }
    if !ShortCircuits(v, path, Some(a)) {
      var np := RStrip(path.value, '/');
      if AnyExcludes(v, np, a) {
        var i :| 0 <= i < |a| && Excludes(v, np, a[i]);
        assert a[i] in b;
        var j :| 0 <= j < |b| && b[j] == a[i];
      }
      if AnyExcludes(v, np, b) {
        var j :| 0 <= j < |b| && Excludes(v, np, b[j]);
        assert b[j] in a;
        var i :| 0 <= i < |a| && a[i] == b[j];
      }
    }
  }

  /** The condition under which the two versions may differ on a pattern:
      it ends in `*` once its trailing slashes are gone, but not as written. */
  predicate StarBeforeSlashes(pattern: string) {
    EndsWith(RStrip(pattern, '/'), '*') && !EndsWith(pattern, '*')
  }

  /** Pattern by pattern, the two versions agree unless the pattern has a
      `*` followed by slashes. */
  lemma PatternVersionsAgree(normPath: string, pattern: string)
    requires !StarBeforeSlashes(pattern)
    ensures Excludes(BasicVersion, normPath, pattern) == Excludes(SessionVersion, normPath, pattern)
  {
    if EndsWith(pattern, '*') {
      RStripFixed(pattern, '/');
      WildcardIsPrefixTest(normPath, pattern);
    }
  }

  /** On a non-empty path the two versions give the same answer, unless
      some pattern has a `*` followed by slashes. */
  lemma VersionsAgree(path: Option<string>, excluded: Option<seq<string>>)
    requires path != Some("")
    requires excluded.Some? ==> forall i :: 0 <= i < |excluded.value| ==> !StarBeforeSlashes(excluded.value[i])
    ensures RequireAuth(BasicVersion, path, excluded) == RequireAuth(SessionVersion, path, excluded)
  {
    if !ShortCircuits(SessionVersion, path, excluded) {
      var np := RStrip(path.value, '/');
      forall i | 0 <= i < |excluded.value|
        ensures Excludes(BasicVersion, np, excluded.value[i]) == Excludes(SessionVersion, np, excluded.value[i])
      {
        PatternVersionsAgree(np, excluded.value[i]);
      }
    }
  }

  /** Both exceptions to `VersionsAgree` are real: a `*` followed by a slash
      is a wildcard only for the Basic version, and the empty path is
      short-circuited only by the Session version. */
  lemma VersionsDiffer()
    ensures !RequireAuth(BasicVersion, Some("/api/v1/users/123"), Some(["/api/v1/users/*/"]))
    ensures RequireAuth(SessionVersion, Some("/api/v1/users/123"), Some(["/api/v1/users/*/"]))
    ensures !RequireAuth(BasicVersion, Some(""), Some(["/"]))
    ensures RequireAuth(SessionVersion, Some(""), Some(["/"]))
  {
  }

  /** Session-version cases of the wildcard and exact tests (auth/auth.py,
      lines 28-36). */
  lemma SessionExamples()
    ensures !RequireAuth(SessionVersion, Some("/api/v1/status/"), Some(["/api/v1/status/"]))
    ensures !RequireAuth(SessionVersion, Some("/api/v1/status"), Some(["/api/v1/status/"]))
    ensures RequireAuth(SessionVersion, Some("/api/v1/statusX"), Some(["/api/v1/status/"]))
    ensures !RequireAuth(SessionVersion, Some("/api/v1/users/123"), Some(["/api/v1/users/*"]))
    ensures RequireAuth(SessionVersion, Some("/api/v1/other"), Some(["/api/v1/users/*"]))
    ensures RequireAuth(SessionVersion, Some("/api/v1/users/"), Some(["/api/v1/users/*"]))
  {
  }

  /** The Basic version's wildcard works on the stripped pattern. */
  lemma BasicExamples()
    ensures !RequireAuth(BasicVersion, Some("/api/v1/status"), Some(["/api/v1/stat*"]))
    ensures !RequireAuth(BasicVersion, Some("/api/v1/status/"), Some(["/api/v1/status"]))
    ensures RequireAuth(BasicVersion, None, Some(["/api/v1/status"]))
    ensures RequireAuth(BasicVersion, Some("/api/v1/status"), Some([]))
  {
  }
}

=== FILE: persisted_sessions.dfy ===
/**
 `SessionDBAuth`: sessions kept as `UserSession` records in a persisted
 table keyed by session id. A record carries its owner and its expiry
 instant; lookup compares that instant with `now`, and
 `destroy_session(user_id)` removes every record of one user. The
 `UserSession` model and its storage are not part of this model; the
 table is a map, and the expiry instant is supplied by the caller.
 */
module PersistedSessions {
  import opened Types

  /** A persisted `UserSession`: the owner and the last instant (seconds) at
      which the session still resolves. */
  datatype UserSession = UserSession(userId: string, expiredAt: int)

  /** The persisted table: session id to record. */
  type SessionTable = map<string, UserSession>

  /** `SessionDBAuth.create_session(user_id)`: only a `str` user id gets a
      session; it is saved as one new record under `newId`, which is
      returned. Any other argument falls through to `None`. */
  function CreateSession(table: SessionTable, userId: Arg, newId: string, expiredAt: int): (r: Issued<SessionTable>)
    ensures !userId.Text? ==> r.sessionId.None? && r.store == table
    ensures userId.Text? ==>
              && r.sessionId == Some(newId)
              && Get(r.store, newId) == Some(UserSession(userId.s, expiredAt))
    ensures forall k :: k != newId ==> Get(r.store, k) == Get(table, k)
  {
    match userId
    case Text(u) => Issued(Some(newId), table[newId := UserSession(u, expiredAt)])
    case _ => Issued(None, table)
  }

  /** `SessionDBAuth.user_id_for_session_id(session_id)` at time `now`: the
      record's owner unless the record is missing or `expired_at < now`. */
  function UserIdForSessionId(table: SessionTable, sessionId: Option<string>, now: int): (userId: Option<string>)
    ensures userId.Some? <==>
              sessionId.Some? && sessionId.value in table && now <= table[sessionId.value].expiredAt
    ensures userId.Some? ==> userId.value == table[sessionId.value].userId
  {
    if sessionId.None? then None
    else match Get(table, sessionId.value)
      case None => None
      case Some(record) => if record.expiredAt < now then None else Some(record.userId)
  }

  /** `SessionDBAuth.destroy_session(user_id)`: removes every record whose
      owner is `user_id` and keeps every other record unchanged. Only a
      `str` argument can equal a stored owner. */
  function DestroySession(table: SessionTable, userId: Arg): (r: SessionTable)
    ensures forall k :: k in r <==> k in table && !(userId.Text? && table[k].userId == userId.s)
    ensures forall k :: k in r ==> r[k] == table[k]
  {
    map k | k in table && !(userId.Text? && table[k].userId == userId.s) :: table[k]
  }

  /** Logout for this variant as evidently intended: the session named by the
      cookie is removed when it resolves at `now`, and nothing else changes.
      (The shipped class only has the per-user `destroy_session`.) */
  function DestroyBySessionId(table: SessionTable, sessionId: Option<string>, now: int): (r: Destroyed<SessionTable>)
    ensures r.ok <==> UserIdForSessionId(table, sessionId, now).Some?
    ensures r.ok ==> r.store == table - {sessionId.value}
    ensures !r.ok ==> r.store == table
  {
    if UserIdForSessionId(table, sessionId, now).None? then Destroyed(false, table)
    else Destroyed(true, table - {sessionId.value})
  }

  /** After `destroy_session(u)` none of `u`'s former sessions resolves at
      any time, and every other session resolves exactly as before. */
  lemma DestroyRevokesEveryUserSession(table: SessionTable, u: string, sessionId: string, now: int)
    requires sessionId in table
    ensures var after := DestroySession(table, Text(u));
            UserIdForSessionId(after, Some(sessionId), now)
              == if table[sessionId].userId == u then None
                 else UserIdForSessionId(table, Some(sessionId), now)
  {
  }

  /** A non-string argument to `destroy_session` removes nothing. */
  lemma DestroyNonTextIsNoOp(table: SessionTable, userId: Arg)
    requires !userId.Text?
    ensures DestroySession(table, userId) == table
  {
  }

  /** Round trip: a record saved with expiry `expiredAt` resolves to its
      owner exactly up to `expiredAt` inclusive. */
  lemma CreateThenResolve(table: SessionTable, userId: string, newId: string, expiredAt: int, now: int)
    ensures var r := CreateSession(table, Text(userId), newId, expiredAt);
            UserIdForSessionId(r.store, r.sessionId, now) == if expiredAt < now then None else Some(userId)
  {
  }
}

=== FILE: plain_sessions.dfy ===
/**
 `SessionAuth`: an in-memory table from session id to user id. A fresh id
 is issued on login, resolved on every request through the session cookie,
 and removed on logout. The random `uuid4()` id is the parameter `newId`.
 */
module PlainSessions {
  import opened Types
  import opened Credentials
  import opened Users

  /** `SessionAuth.user_id_by_session_id`: session id to user id. */
  type Sessions = map<string, string>

  /** `SessionAuth.create_session(user_id)`. A `None` user gets no session;
      otherwise `newId` is mapped to the user and returned, and every other
      entry is kept as it was. */
  function CreateSession(store: Sessions, userId: Option<string>, newId: string): (r: Issued<Sessions>)
    ensures userId.None? ==> r.sessionId.None? && r.store == store
    ensures userId.Some? ==> r.sessionId == Some(newId) && Get(r.store, newId) == userId
    ensures forall k :: k != newId ==> Get(r.store, k) == Get(store, k)
  {
    match userId
    case None => Issued(None, store)
    case Some(u) => Issued(Some(newId), store[newId := u])
  }

  /** `SessionAuth.user_id_for_session_id(session_id)`. */
  function UserIdForSessionId(store: Sessions, sessionId: Option<string>): (userId: Option<string>)
    ensures userId.Some? <==> sessionId.Some? && sessionId.value in store
    ensures userId.Some? ==> store[sessionId.value] == userId.value
  {
    match sessionId
    case None => None
    case Some(s) => Get(store, s)
  }

  /** `SessionAuth.current_user(request)`: the stored user whose id the
      session cookie resolves to. */
  function CurrentUser(store: Sessions, users: seq<User>, req: Option<Request>, cookieName: Option<string>): (user: Option<User>)
    ensures user.Some? ==>
              var c := SessionCookie(req, cookieName);
              c.Some? && c.value in store && user.value.id == store[c.value] && user.value in users
    ensures (var c := SessionCookie(req, cookieName);
             c.Some? && c.value in store && (exists i :: 0 <= i < |users| && users[i].id == store[c.value]))
            ==> user.Some?
  {
    GetById(users, UserIdForSessionId(store, SessionCookie(req, cookieName)))
  }

  /** `SessionAuth.destroy_session(request)`: succeeds exactly when the
      request carries a session cookie that resolves, and then removes that
      one entry; otherwise the store is left as it was. */
  function DestroySession(store: Sessions, req: Option<Request>, cookieName: Option<string>): (r: Destroyed<Sessions>)
    ensures r.ok <==> SessionCookie(req, cookieName).Some? && SessionCookie(req, cookieName).value in store
    ensures r.ok ==> r.store == store - {SessionCookie(req, cookieName).value}
    ensures !r.ok ==> r.store == store
  {
    if req.None? then Destroyed(false, store)
    else
      var sessionId := SessionCookie(req, cookieName);
      if sessionId.None? then Destroyed(false, store)
      else if UserIdForSessionId(store, sessionId).None? then Destroyed(false, store)
      else Destroyed(true, store - {sessionId.value})
  }

  /** A fresh id grows the table by exactly one entry and keeps the others. */
  lemma CreateAddsOneSession(store: Sessions, userId: string, newId: string)
    requires newId !in store
    ensures var r := CreateSession(store, Some(userId), newId);
            |r.store| == |store| + 1 && store.Keys < r.store.Keys
  {
    var r := CreateSession(store, Some(userId), newId);
    assert r.store.Keys == store.Keys + {newId};
  }

  /** Round trip: the id just issued resolves to the user it was issued for. */
  lemma CreateThenResolve(store: Sessions, userId: string, newId: string)
    ensures var r := CreateSession(store, Some(userId), newId);
            UserIdForSessionId(r.store, r.sessionId) == Some(userId)
  {
  }

  /** After a successful logout the cookie no longer resolves, and a second
      logout with the same request fails and changes nothing. */
  lemma DestroyIsIdempotent(store: Sessions, req: Option<Request>, cookieName: Option<string>)
    ensures var first := DestroySession(store, req, cookieName);
            && UserIdForSessionId(first.store, SessionCookie(req, cookieName)).None?
            && DestroySession(first.store, req, cookieName) == Destroyed(false, first.store)
  {
  }
}

=== FILE: strings.dfy ===
/**
 The string helpers the core borrows from Python: `str.endswith` for one
 character, `str.rstrip` for one character, and the repetition used to talk
 about trailing runs. `str.startswith(p)` is Dafny's prefix relation `p <= s`.
 */
module Strings {

  /** `s.endswith(c)` for a single character `c`. */
  predicate EndsWith(s: string, c: char) {
    |s| > 0 && s[|s| - 1] == c
  }

  /** `k` copies of the character `c`. */
  function Repeat(c: char, k: nat): (r: string)
    ensures |r| == k
    ensures forall i :: 0 <= i < k ==> r[i] == c
  {
    seq(k, _ => c)
  }

  /** Characterises the result of stripping every trailing `c` from `s`:
      a prefix of `s` that does not end in `c` and is followed only by `c`s. */
  ghost predicate IsRStripOf(r: string, s: string, c: char) {
    && r <= s
    && !EndsWith(r, c)
    && forall i :: |r| <= i < |s| ==> s[i] == c
  }

  /** Python's `s.rstrip(c)` for a single character `c`. */
  function RStrip(s: string, c: char): (r: string)
    ensures IsRStripOf(r, s, c)
    decreases |s|
  {
    if EndsWith(s, c) then RStrip(s[..|s| - 1], c) else s
  }

  /** The stripped form is unique: any string with the characterising
      properties is the one `RStrip` computes. */
  lemma RStripUnique(r: string, s: string, c: char)
    requires IsRStripOf(r, s, c)
    ensures r == RStrip(s, c)
  {
    var q := RStrip(s, c);
    assert |r| == |q|;
  }

  /** Appending any number of `c`s does not change the stripped form. */
  lemma RStripIgnoresTrailing(s: string, c: char, k: nat)
    ensures RStrip(s + Repeat(c, k), c) == RStrip(s, c)
  {
    var r := RStrip(s, c);
    var t := s + Repeat(c, k);
    assert r <= t;
    assert forall i :: |r| <= i < |t| ==> t[i] == c by {
      forall i | |r| <= i < |t|
        ensures t[i] == c
      {
        if i < |s| {
          assert t[i] == s[i];
        } else {
          assert t[i] == Repeat(c, k)[i - |s|];
        }
      }
    }
    RStripUnique(r, t, c);
  }

  /** A string that does not end in `c` is its own stripped form. */
  lemma RStripFixed(s: string, c: char)
    requires !EndsWith(s, c)
    ensures RStrip(s, c) == s
  {
  }
}

=== FILE: types.dfy ===
/**
 Shared vocabulary of the authentication core: optional values, the
 dynamically typed arguments the Python code inspects with `is None` and
 `isinstance(_, str)`, and the parts of an HTTP request the core reads.
 */
module Types {

  /** A value that may be absent (Python's `None`). */
  datatype Option<+T> = None | Some(value: T)

  /** An argument whose Python type is checked at run time: `None`, a `str`,
      or a value of some other type. */
  datatype Arg = Missing | Text(s: string) | NonText

  /** The parts of an inbound request the core looks at. Header names are
      compared exactly; the server's case-insensitive header lookup is not
      modelled. */
  datatype Request = Request(path: string, headers: map<string, string>, cookies: map<string, string>)

  /** What a `create_session` call returns: the new session id (or `None`)
      together with the store as it is afterwards. */
  datatype Issued<S> = Issued(sessionId: Option<string>, store: S)

  /** What a request-based `destroy_session` call returns: whether a session
      was removed, together with the store as it is afterwards. */
  datatype Destroyed<S> = Destroyed(ok: bool, store: S)

  /** Looks a key up in a map, yielding `None` when it is absent (`dict.get`). */
  function Get<K, V>(m: map<K, V>, k: K): (r: Option<V>)
    ensures r.Some? <==> k in m
    ensures r.Some? ==> m[k] == r.value
  {
    if k in m then Some(m[k]) else None
  }
}

=== FILE: users.dfy ===
/**
 The user datastore at the boundary of the core: a table of users read by
 `User.search({'email': ...})` and `User.get(id)`. The datastore itself
 (models/user.py) is not part of this model; these two queries state only
 what the core relies on.
 */
module Users {
  import opened Types

  datatype User = User(id: string, email: string)

  /** `a` is `b` with some elements left out, the rest kept in order. */
  predicate IsSubsequence<T(==)>(a: seq<T>, b: seq<T>)
    decreases |b|
  {
    if a == [] then true
    else if b == [] then false
    else (a[0] == b[0] && IsSubsequence(a[1..], b[1..])) || IsSubsequence(a, b[1..])
  }

  /** `User.search({'email': email})`: the users with that email, in
      storage order. */
  function SearchByEmail(users: seq<User>, email: string): (found: seq<User>)
    ensures forall u :: u in found <==> u in users && u.email == email
    ensures found != [] ==>
              exists i :: 0 <= i < |users| && users[i] == found[0]
                          && forall j :: 0 <= j < i ==> users[j].email != email
    ensures IsSubsequence(found, users)
  {
    if users == [] then []
    else
      var rest := SearchByEmail(users[1..], email);
      if users[0].email == email then [users[0]] + rest
      else
        assert forall j :: 1 <= j < |users| ==> users[j] == users[1..][j - 1];
        rest
  }

  /** The search keeps every matching record as often as it is stored, so
      with `IsSubsequence` it is exactly the in-order filter of the table. */
  lemma {:induction false} SearchKeepsMultiplicity(users: seq<User>, email: string)
    ensures forall u :: multiset(SearchByEmail(users, email))[u] ==
                        if u.email == email then multiset(users)[u] else 0
    decreases |users|
  {
    if users != [] {
      SearchKeepsMultiplicity(users[1..], email);
      assert users == [users[0]] + users[1..];
      var rest := SearchByEmail(users[1..], email);
      if users[0].email == email {
        assert SearchByEmail(users, email) == [users[0]] + rest;
      } else {
        assert SearchByEmail(users, email) == rest;
      }
    }
  }

  /** `User.get(user_id)`: the first stored user with that id; nothing for
      a `None` id. */
  function GetById(users: seq<User>, id: Option<string>): (found: Option<User>)
    ensures found.Some? ==> found.value in users && id == Some(found.value.id)
    ensures found.None? <==> id.None? || forall i :: 0 <= i < |users| ==> users[i].id != id.value
  {
    if id.None? || users == [] then None
    else if users[0].id == id.value then Some(users[0])
    else GetById(users[1..], id)
  }
}

=== FILE: views.dfy ===
/**
 The session views: `POST /auth_session/login` checks the submitted
 credentials and issues a session cookie; `DELETE /auth_session/logout`
 destroys the session the cookie names. Responses are reduced to their
 status code, the session cookie set (if any) and the strategy state
 afterwards. Password verification belongs to the user datastore and is
 the parameter `validPassword`.
 */
module Views {
  import opened Types
  import opened Users
  import opened Credentials
  import opened App

  /** The response of the login view. */
  datatype LoginResponse = LoginResponse(status: int, sessionCookie: Option<string>, auth: Auth)

  /** `session_auth_login`: 400 when the email or password is missing, 404
      when no user has the email, 401 when the first such user rejects the
      password, and otherwise one session is created for that user and its
      id set as the session cookie. A strategy without `create_session`
      fails with 500. Nothing changes unless a session is issued. */
  function Login(auth: Auth, users: seq<User>, validPassword: (User, string) -> bool,
                 email: Option<string>, password: Option<string>, newId: string, now: int): (r: LoginResponse)
    ensures email.None? || password.None? ==> r.status == 400
    ensures email.Some? && password.Some? && SearchByEmail(users, email.value) == [] ==> r.status == 404
    ensures email.Some? && password.Some? && SearchByEmail(users, email.value) != [] ==>
              var user := SearchByEmail(users, email.value)[0];
              && (!validPassword(user, password.value) ==> r.status == 401)
              && (validPassword(user, password.value) ==> r.status == if auth.HasSessions() then 200 else 500)
    ensures r.status != 200 ==> r.sessionCookie.None? && r.auth == auth
    ensures r.status == 200 ==>
              && email.Some? && password.Some?
              && SearchByEmail(users, email.value) != []
              && var user := SearchByEmail(users, email.value)[0];
              && user.email == email.value
              && r.sessionCookie == Some(newId)
              && r.auth.HasSessions()
              && (forall t :: LookupSession(r.auth, Some(newId), t) ==
                                if ExpiredAt(auth, now, t) then None else Some(user.id))
              && (forall k, t :: k != newId ==> LookupSession(r.auth, Some(k), t) == LookupSession(auth, Some(k), t))
  {
    if email.None? || password.None? then LoginResponse(400, None, auth)
    else
      var found := SearchByEmail(users, email.value);
      if found == [] then LoginResponse(404, None, auth)
      else
        var user := found[0];
        assert user in found;
        if !validPassword(user, password.value) then LoginResponse(401, None, auth)
        else match CreateSession(auth, user.id, newId, now)
          case None => LoginResponse(500, None, auth)
          case Some(issued) => LoginResponse(200, issued.sessionId, issued.store)
  }

  /** The response of the logout view. */
  datatype LogoutResponse = LogoutResponse(status: int, auth: Auth)

  /** `session_auth_logout`: 403 without a session cookie, 500 for a
      strategy without `destroy_session`, 403 when the cookie's session
      cannot be destroyed, otherwise 200. It succeeds exactly when the
      cookie resolves at `now`; afterwards that session resolves at no
      time, and every other session resolves as before. */
  function Logout(auth: Auth, req: Request, cookieName: Option<string>, now: int): (r: LogoutResponse)
    ensures SessionCookie(Some(req), cookieName).None? ==> r.status == 403
    ensures SessionCookie(Some(req), cookieName).Some? && !auth.HasSessions() ==> r.status == 500
    ensures auth.HasSessions() ==>
              (r.status == 200 <==> LookupSession(auth, SessionCookie(Some(req), cookieName), now).Some?)
    ensures r.status in {200, 403, 500}
    ensures r.status != 200 ==> r.auth == auth
    ensures r.status == 200 ==>
              && r.auth.HasSessions()
              && (forall t :: LookupSession(r.auth, SessionCookie(Some(req), cookieName), t).None?)
              && (forall k, t :: Some(k) != SessionCookie(Some(req), cookieName) ==>
                    LookupSession(r.auth, Some(k), t) == LookupSession(auth, Some(k), t))
  {
    var sessionId := SessionCookie(Some(req), cookieName);
    if sessionId.None? then LogoutResponse(403, auth)
    else match DestroySession(auth, Some(req), cookieName, now)
      case None => LogoutResponse(500, auth)
      case Some(d) => if !d.ok then LogoutResponse(403, auth) else LogoutResponse(200, d.store)
  }

  /** `session_auth_logout` with `destroy_session` as the code is written:
      under the persisted strategy it answers 403 for every request. */
  function LogoutAsWritten(auth: Auth, req: Request, cookieName: Option<string>, now: int): (r: LogoutResponse)
    ensures auth.SessionDBAuth? ==> r == LogoutResponse(403, auth)
    ensures !auth.SessionDBAuth? ==> r == Logout(auth, req, cookieName, now)
  {
    var sessionId := SessionCookie(Some(req), cookieName);
    if sessionId.None? then LogoutResponse(403, auth)
    else match DestroySessionAsWritten(auth, Some(req), cookieName, now)
      case None => LogoutResponse(500, auth)
      case Some(d) => if !d.ok then LogoutResponse(403, auth) else LogoutResponse(200, d.store)
  }

  /** Logging in and then out with the issued cookie succeeds, and the
      session is gone afterwards (plain sessions). */
  lemma LoginThenLogout(s: PlainSessions.Sessions, users: seq<User>, validPassword: (User, string) -> bool,
                        email: string, password: string, newId: string, now: int,
                        req: Request, cookieName: string)
    requires Login(SessionAuth(s), users, validPassword, Some(email), Some(password), newId, now).status == 200
    requires cookieName in req.cookies && req.cookies[cookieName] == newId
    ensures var afterLogin := Login(SessionAuth(s), users, validPassword, Some(email), Some(password), newId, now).auth;
            var out := Logout(afterLogin, req, Some(cookieName), now);
            && out.status == 200
            && LookupSession(out.auth, Some(newId), now).None?
  {
  }

  /** Under the persisted strategy the shipped logout refuses a cookie whose
      session is live, which the corrected logout accepts. */
  lemma PersistedLogoutDiffers(t: PersistedSessions.SessionTable, dur: int, req: Request, cookieName: string, now: int)
    requires cookieName in req.cookies
    requires var s := req.cookies[cookieName]; s in t && now <= t[s].expiredAt
    ensures LogoutAsWritten(SessionDBAuth(t, dur), req, Some(cookieName), now).status == 403
    ensures Logout(SessionDBAuth(t, dur), req, Some(cookieName), now).status == 200
  {
  }
}
